=== FILE: README.md ===
# workmate task lifecycle, modelled in Dafny

workmate is a small Go service that runs long I/O jobs ("tasks") in the
background. A caller creates a task, polls its status and fetches its result
once it has finished. This project models the core of that service and proves
properties of the model:

- **`TaskStore`** models the task store (`pkg/taskstore.go`). It is a
  `map<string, Task>` with create, get, update, delete and list. Each
  operation is a pure function that returns the new store together with a
  result or a `TaskError`. Listing is a method, because Go's map iteration
  order is unspecified, so the model picks the next key freely.
- **`Service`** models the task service (`internal/service.go`).
  - Create delegates to the store and reports the one execution unit it
    launches.
  - Get and list refresh the duration of running tasks and write it back.
  - Delete delegates to the store.
  - `GetTaskResult` checks that the task is ready.
  - The background execution unit is split into a **start** step and a
    **finish** step. The start step stamps the task running. The finish step
    takes the branch of the `select` (timer or cancellation) as a parameter
    and writes the terminal record back.
- **`Lifecycle`** proves properties of the service as a whole:
  - every service operation keeps the store invariant `Valid`, the start
    step only on a task that has not finished. A second start on a finished
    task leaves an inconsistent record;
  - a task goes pending → running → completed or failed. A unit launched
    by create runs under `context.Background()`, so it can only complete;
    failure by cancellation needs a unit started with a cancellable context;
  - the terminal write is lost when the task was deleted in between;
  - reads of a finished task are stable;
  - the read-then-write race of the duration refresh can undo a finish.
- **`Helpers`** models the query-parameter combinators of the HTTP layer
  (`api/v1/helpers.go`), with integers as the numeric type. The string
  parser is a function parameter. **`GoStrings`** models the
  `strings.Index`/`strings.Split` behaviour they use, with `strings.Join` as
  its inverse.
- **`Dto`** models the mapping from the task record to the API task object
  (`api/v1/common.go`).
- **`Common`** holds the record, the status values and the error messages of
  `pkg/common.go`. **`GoDurations`** formats whole seconds the way Go's
  `Duration.String` does, for the completion message. **`Results`** holds
  `Option` and `Result`.

Parameters replace everything nondeterministic or external:

- the clock (`now`, whole seconds; 0 is Go's zero time, so `IsZero` is `== 0`);
- the generated UUID (`freshId`);
- the random draw `rand.Intn(121)` (`draw < 121`);
- which case of the `select` fires first (`Branch`). `CanTake` says which
  cases a unit's context allows: the timer always, cancellation only under
  a cancellable context.

The `Duration` field is a number of seconds. `None` stands for the empty
string a new record starts with.

Four behaviours of the code the model keeps as written:

- The finish step's write after a deletion fails and is dropped. It never
  re-inserts the record.
- The start step stamps `running` over whatever status it reads. It does not
  check for `pending`. A second start on a completed or failed task keeps
  that task's result or error text next to the `running` status, which
  breaks the store invariant (`Lifecycle.RestartBreaksValid`).
- The work time is drawn at random, so every whole second from 180 to 300
  is possible.
- The service's list operation never returns an error.

## Model

| member | source | states |
|---|---|---|
| Common.ParseStatus | pkg/common.go:6-11 | Reading a status text back gives the status exactly when that status has that text. So the four status constants are distinct. |
| TaskStore.CreateTask | pkg/taskstore.go:38-57 | Fails with NameRequired exactly when the name is empty, and then leaves the store unchanged. Otherwise it returns a pending, consistent record with the given id, name and creation time, stores that record under the id, and changes no other key. |
| TaskStore.GetTask | pkg/taskstore.go:60-71 | Succeeds exactly when the id is stored and then returns the stored record; otherwise fails with NotFound. |
| TaskStore.UpdateTask | pkg/taskstore.go:74-84 | Never adds or removes a key. Succeeds exactly when `t.id` is stored, and then replaces that record wholesale by `t`. Otherwise fails with NotFound and leaves the store unchanged. Other keys never change. |
| TaskStore.DeleteTask | pkg/taskstore.go:87-97 | Succeeds exactly when the id is stored. Removes only that key, so the store shrinks by one. Otherwise fails with NotFound and leaves the store unchanged. |
| TaskStore.GetTasks | pkg/taskstore.go:25-35 | Returns one record per stored key: as many records as the store holds, each the value stored under a distinct key. When records are filed under their own ids, the returned ids are pairwise distinct. |
| TaskStore.EnumerationIsComplete | pkg/taskstore.go:25-35 | A list of distinct stored keys as long as the store covers every key, so the list omits no record. |
| TaskStore.CreateAddsOne | pkg/taskstore.go:44-54 | A create with a fresh id grows the store by exactly one record, and a following get returns the created record. |
| TaskStore.UpdateThenGet | pkg/taskstore.go:74-84 | After an update of a stored id, get returns exactly the supplied record, and gets of other ids are unaffected. |
| TaskStore.DeleteThenGet | pkg/taskstore.go:87-97 | After deleting a stored id, get on it fails with NotFound. |
| TaskStore.OperationsKeepWellKeyed | pkg/taskstore.go:38-97 | Create, update and delete keep every record filed under its own id. |
| Service.CreateTask | internal/service.go:81-91 | Passes the store's empty-name error on unchanged, with no store change and no unit launched. Otherwise it returns a new pending record with the given name and id, created at `now`, with no start or finish time, result, error or duration. That record is now the only addition to the store: no other key changes. GetTaskResult on it reports NotCompleted. Exactly one execution unit is launched, for that id, under a context that cannot be cancelled. |
| Service.Refresh | internal/service.go:100-106 | A running task with a start time gets duration `now - startedAt`. Every other task is shown unchanged. |
| Service.GetTask | internal/service.go:94-109 | An absent id gives NotFound and no store change. A present id returns the refreshed record and adds or removes no key. When records are filed under their own ids, it writes the refreshed record back under that id only. |
| Service.GetTasks | internal/service.go:64-78 | Returns one refreshed record per stored key, as many as the store holds. When records are filed under their own ids, the store afterwards holds the refreshed form of every record. A valid store stays valid. |
| Service.RefreshAllKeepsValid | internal/service.go:68-75 | Refreshing every record of a valid store gives a valid store. |
| Service.RefreshListed | internal/service.go:68-75 | The listing loop returns each listed record refreshed, in listing order. It leaves the store as the in-order write-back of the running records. |
| Service.WriteBack | internal/service.go:69-74 | One turn of the listing loop writes the refreshed record under its id when the task is running with a start time and the id is stored. Any other record leaves the store as it was. The key set never changes. |
| Service.WriteBackAll | internal/service.go:68-75 | Writing back listed records never adds or removes a key. |
| Service.WriteBackStep | internal/service.go:69-73 | One turn of the loop extends the refreshed part of the store by the next listed key and leaves the other records alone. This holds when records are filed under their own ids. |
| Service.ListingWrittenBack | internal/service.go:68-75 | After the first n turns, exactly the records under the first n listed keys are refreshed. |
| Service.ListingRefreshesAll | internal/service.go:64-78 | Writing back a complete listing leaves every stored record in its refreshed form. |
| Service.DeleteTask | internal/service.go:112-114 | Succeeds exactly when the id is present and removes only that key: every other key stays, with its record. Afterwards a get of the id fails with NotFound at any time. An absent id gives NotFound and no change. |
| Service.GetTaskResult | internal/service.go:117-129 | NotFound exactly when the id is absent. NotCompleted exactly when the task exists but is neither completed nor failed. Otherwise it returns the stored record, result and error untouched. |
| Service.WorkSeconds | internal/service.go:40 | The simulated work time is between 180 and 300 seconds inclusive. |
| Service.CompletionMessage | internal/service.go:48 | The completion result is non-empty and starts with "Task completed successfully after ". |
| Service.Start | internal/service.go:22-37 | An absent id leaves the store unchanged and ends the unit. Otherwise the local copy is the stored record with only its status set to running and its start time set to `now`, and that copy is written back. No key is added or removed. |
| Service.Terminal | internal/service.go:42-58 | The timer branch gives completed with the completion message and leaves the error untouched. The cancellation branch gives failed with "Task was cancelled" and leaves the result untouched. Both set the finish time and duration `now - startedAt`, and keep id, name, creation and start times. |
| Service.CanTake | internal/service.go:42-52 | The timer case can always fire. For a unit whose context cannot be cancelled, it is the only case that can. |
| Service.Finish | internal/service.go:42-60 | Writes the terminal record under the task's id if it is still stored. Otherwise the write is dropped and the store is unchanged, so nothing is re-created. |
| Lifecycle.RefreshChangesOnlyDuration | internal/service.go:100-106 | A read's refresh changes no field but the duration. |
| Lifecycle.CreateKeepsValid | internal/service.go:81-91 | Creation keeps the store invariant: records under their own ids, each consistent. |
| Lifecycle.DeleteKeepsValid | internal/service.go:112-114 | Deletion keeps the store invariant. |
| Lifecycle.GetKeepsValid | internal/service.go:94-109 | A read with its write-back keeps the store invariant. |
| Lifecycle.StartKeepsValid | internal/service.go:22-37 | Starting an unfinished task keeps the store invariant and yields a consistent local copy. |
| Lifecycle.RestartBreaksValid | internal/service.go:22-37 | Starting a task that is already completed or failed turns a valid store into an invalid one: the record says running but keeps its result or error text. |
| Lifecycle.EveryWorkTimeCanBeDrawn | internal/service.go:39-40 | Every whole second from 180 to 300 is the work time of exactly one draw. |
| Lifecycle.CompletionMessageShowsMinutes | internal/service.go:48 | The work time in a completion message is three to five minutes, written as minutes and seconds ("4m7s"), never with hours. |
| Lifecycle.FinishKeepsValid | internal/service.go:42-60 | Writing back the terminal form of a consistent running copy keeps the store invariant, on either branch. |
| Lifecycle.TaskLifecycle | internal/service.go:22-60 | Create, start and finish take a task from pending to running to completed (timer) or failed (cancellation). GetTaskResult refuses it until the end, and the store stays valid with one more record. The unit the create launches is not cancellable, so on any branch its context allows the task completes. |
| Lifecycle.DeletedTaskStaysDeleted | internal/service.go:42-60 | If the task is deleted between the start and the finish step, the terminal write is lost. The id stays absent, and the store equals the original minus that id. |
| Lifecycle.CompletedDurationCoversWorkTime | internal/service.go:40-49 | The timer fires no earlier than the drawn work time after the start, so a completed task's recorded duration and its finish minus start time are at least that work time, hence at least 180 seconds. |
| Lifecycle.TerminalReadsAreStable | internal/service.go:94-109 | Reads of a completed or failed task return the stored record and leave the store unchanged, at every clock value. |
| Lifecycle.RunningReadReportsElapsed | internal/service.go:100-106 | A read of a running task reports, and stores, the seconds elapsed since its start. |
| Lifecycle.InterleavedRefreshUndoesFinish | internal/service.go:94-106 | A finish step that lands between a read's refresh and its write-back is overwritten, so the finished task reads as running again. |
| GoDurations.DurationText | internal/service.go:48 | The formatted duration is at least two characters long and ends in "s". |
| GoDurations.MinutesText | internal/service.go:48 | A duration of at least a minute and under an hour is written as minutes then seconds, with no hours part. |
| GoDurations.DecimalRoundTrip | internal/service.go:48 | Reading back the decimal digits of the formatted work time gives the number again. |
| GoStrings.Split | api/v1/helpers.go:331 | Splitting on a non-empty separator, or splitting non-empty text, gives at least one piece. SplitJoin and PiecesAvoidSeparator state what the pieces are. |
| GoStrings.SplitJoin | api/v1/helpers.go:331 | Joining the pieces of a split with the same separator gives back the parameter text, for every separator including the empty one. |
| GoStrings.PiecesAvoidSeparator | api/v1/helpers.go:331 | No piece of a split on a non-empty separator contains the separator. |
| GoStrings.SplitWithoutSeparator | api/v1/helpers.go:331 | Text without the separator splits into the single piece it is. |
| Helpers.ParseInt64 | api/v1/helpers.go:215-222 | Empty text parses as 0 without error. Other text goes to the underlying parser. |
| Helpers.ParseInt32 | api/v1/helpers.go:224-232 | Empty text parses as 0 without error. The value is always in the 32-bit range, and an in-range value comes back unchanged. The error is the underlying parser's. |
| Helpers.WithParse | api/v1/helpers.go:268-273 | Returns the parser's value and error, never flagged as a default. |
| Helpers.WithRequire | api/v1/helpers.go:245-255 | Empty text gives the "required parameter is missing" error. Any other text behaves as WithParse. Never flagged as a default. |
| Helpers.WithDefaultOrParse | api/v1/helpers.go:257-266 | Flagged as a default exactly for empty text, which gives the default with no error. Any other text behaves as WithParse. |
| Helpers.WithMinimum | api/v1/helpers.go:277-285 | Fails, with the minimum-constraint message, exactly when the value is below the bound. |
| Helpers.WithMaximum | api/v1/helpers.go:287-295 | Fails, with the maximum-constraint message, exactly when the value is above the bound. |
| Helpers.FirstViolation | api/v1/helpers.go:304-310 | No error exactly when every constraint passes. Otherwise it returns the error of a failing constraint with all earlier ones passing, i.e. the first failure in order. |
| Helpers.ParseNumericParameter | api/v1/helpers.go:297-313 | Every error comes with value 0, and the operation's own error wins. A default is returned without checking constraints. Otherwise the parsed value is returned exactly when all constraints pass, and else the first failing constraint's error. |
| Helpers.ParseNumericArrayParameter | api/v1/helpers.go:321-352 | Empty text gives the missing error if required, and no values otherwise. Else it succeeds exactly when every piece of the split passes ParseNumericParameter. On success it returns one value per piece, value i being the operation's value for piece i. On failure it returns no values and the error of the first failing piece. |
| Helpers.MissingRequiredParameter | api/v1/helpers.go:245-255 | A required parameter left empty is reported missing, with value 0, whatever the constraints. |
| Helpers.DefaultSkipsConstraints | api/v1/helpers.go:304-312 | An empty parameter with a default yields the default with no error, even when the default breaks a constraint. |
| Helpers.RangeConstraints | api/v1/helpers.go:277-312 | With a minimum and a maximum constraint, a parsed value is accepted exactly inside the bounds. A value below the minimum is reported as a minimum violation, even when it is also above the maximum. |
| Dto.MapInternalTaskToAPI | api/v1/common.go:8-19 | The API object determines the record up to its name: rebuilding it with the record's name gives the record back. |
| Dto.MappingForgetsOnlyName | api/v1/common.go:8-19 | Two records map to the same API object exactly when they differ at most in their names. |
| Dto.MapInternalTasksToAPI | api/v1/common.go:22-28 | Output as long as the input, element i being the mapping of input element i. An empty list maps to an empty list. |

## Left out

- Locking: the `sync.RWMutex` of the store is not modelled. Every store
  operation is atomic and sequential. Concurrency appears only as explicit
  interleavings of separately invoked steps.
- `Service.GetTasks`, `Service.GetTask` and `Service.Start` each run as one
  atomic step at one clock value. In Go each store call locks separately,
  so another step can land between the read and the write-back; the listing
  loop also reads the clock once per running task. Their contracts hold
  only when nothing interferes. `Lifecycle.InterleavedRefreshUndoesFinish`
  shows the interference for a single read.
- The `go` statement that spawns the execution unit is not modelled.
  `Service.CreateTask` reports the unit it would launch: its id, and that
  its context cannot be cancelled.
- `Service.Finish` takes any branch. Only a unit started directly under a
  cancellable context can take the cancellation branch. `CanTake` states
  this, and `Lifecycle.TaskLifecycle` applies it to the unit that create
  launches. `Finish` itself is not restricted, because the unit can also
  be started directly.
- External values: `time.Now`, `time.Since`, `time.After`, `ctx.Done`,
  `rand.Intn` and `uuid.New` are parameters. Uniqueness of the generated id
  is assumed only by the lemmas that need it.
- Time precision: timestamps are whole seconds, so `Round(time.Second)` is
  the identity.
- The `Duration` field is the number of seconds rather than its
  `Duration.String` text.
- GoDurations.DurationText: its contract states only the trailing "s".
  The digit groups are not read back as a whole. `DecimalRoundTrip` covers
  each number, `GoDurations.MinutesText` gives the shape of durations under
  an hour, and `Lifecycle.CompletionMessageShowsMinutes` gives the
  minutes-and-seconds shape of every work time.
- Service.CompletionMessage: its contract states only the fixed prefix and
  that the text is non-empty. The formatting of the work time by
  `GoDurations.DurationText` is written out but not proved against Go's
  formatter.
- Status values: status strings other than the four constants cannot be
  represented.
- Constructors: `NewTaskStore` and `NewService` only make an empty map,
  which is the empty Dafny map.
- Helpers.WithRequire: "the parser is not called on empty text" cannot be
  stated of a pure function. The contract states the returned value instead.
- Helpers.ParseInt64: the stand-in for `strconv.ParseInt` is
  unconstrained, so the 64-bit range is not modelled.
- Float instantiations of `Number` are not modelled: integers only.
- Other helpers: `parseBool`, `parseBoolParameter`, `parseTime`,
  `parseTimes`, `parseFloat32`, `parseFloat64` and `parseQuery` are not
  modelled. They are thin wrappers over Go's parsing libraries for
  non-integer types.
- HTTP and filesystem: `Response` builds the HTTP reply value, and
  `EncodeJSONResponse` and the form-file readers do I/O. All three are
  outside the model.
- Reflection: `IsZeroValue` and `AssertRecurse*` use reflection.
- UTF-8: `GoStrings.Explode` splits per character. Go splits per UTF-8
  sequence, and this model has no encoding.
- The API task type's own definition is not part of this model. `Dto`
  holds exactly the fields the mapping assigns.
- `cmd/launcher` and `cmd/swagger` (server start-up and documentation
  pages) are not modelled.

=== FILE: common.dfy ===
/** The task record, its status values and the error messages of the task
    store (pkg/common.go). */
module Common {
  import opened Results

  /** Whole seconds on the service's clock; 0 plays the part of Go's zero
      `time.Time`, so "the timestamp is unset" is `t == 0`. */
  type Time = nat

  /** The four status constants. */
  datatype Status = Pending | Running | Completed | Failed

  /** The wire text of each status. */
  function StatusText(s: Status): string
  {
    match s
    case Pending => "pending"
    case Running => "running"
    case Completed => "completed"
    case Failed => "failed"
  }

  /** Reads a status back from its text; anything else is not a status. */
  function ParseStatus(text: string): (r: Option<Status>)
    ensures forall s: Status :: r == Some(s) <==> StatusText(s) == text
  {
    if text == "pending" then Some(Pending)
    else if text == "running" then Some(Running)
    else if text == "completed" then Some(Completed)
    else if text == "failed" then Some(Failed)
    else None
  }

  predicate IsTerminal(s: Status)
  {
    s == Completed || s == Failed
  }

  /** The errors the store and the service report. */
  datatype TaskError = NameRequired | NotFound | NotCompleted

  function ErrorText(e: TaskError): string
  {
    match e
    case NameRequired => "Task name is required"
    case NotFound => "Task not found"
    case NotCompleted => "Task is not completed yet"
  }

  /** One task record. `duration` is the elapsed time in seconds, `None`
      standing for the empty string the record starts with. */
  datatype Task = Task(
    id: string,
    name: string,
    status: Status,
    createdAt: Time,
    startedAt: Time,
    finishedAt: Time,
    result: string,
    error: string,
    duration: Option<int>)

  /** The per-record invariant the service's own writes keep: a result only
      on completion, an error only on failure, nothing stamped while
      pending, and a duration once terminal. */
  predicate Consistent(t: Task)
  {
    && (t.result != "" <==> t.status == Completed)
    && (t.error != "" <==> t.status == Failed)
    && (t.status == Pending ==> t.startedAt == 0 && t.finishedAt == 0 && t.duration == None)
    && (IsTerminal(t.status) ==> t.duration.Some?)
  }
}

=== FILE: dto.dfy ===
/** The mapping from the service's task record to the task object of the
    HTTP API (api/v1/common.go). The API object holds the fields the
    mapping fills; the record's name is not among them. */
module Dto {
  import opened Results
  import opened Common

  datatype ApiTask = ApiTask(
    id: string,
    status: string,
    createdAt: Time,
    startedAt: Time,
    finishedAt: Time,
    result: string,
    error: string,
    duration: Option<int>)

  /** Rebuilds the record an API object came from, given the name the
      mapping dropped; `None` if the status text is not a status. */
  function RestoreTask(a: ApiTask, name: string): Option<Task>
  {
    match ParseStatus(a.status)
    case None => None
    case Some(st) =>
      Some(Task(a.id, name, st, a.createdAt, a.startedAt, a.finishedAt, a.result, a.error, a.duration))
  }

  /** `MapInternalTaskToAPI`: copies every field but the name; the record
      can be rebuilt from the result and the name. */
  function MapInternalTaskToAPI(t: Task): (a: ApiTask)
    ensures RestoreTask(a, t.name) == Some(t)
  {
    ApiTask(t.id, StatusText(t.status), t.createdAt, t.startedAt, t.finishedAt, t.result, t.error, t.duration)
  }

  /** Two records look the same through the API exactly when they differ
      at most in their names. */
  lemma MappingForgetsOnlyName(t1: Task, t2: Task)
    ensures MapInternalTaskToAPI(t1) == MapInternalTaskToAPI(t2) <==> t1.(name := t2.name) == t2
  {
    if MapInternalTaskToAPI(t1) == MapInternalTaskToAPI(t2) {
      assert RestoreTask(MapInternalTaskToAPI(t1), t2.name) == Some(t1.(name := t2.name));
    }
  }

  /** `MapInternalTasksToAPI`: maps every record, in order. */
  method MapInternalTasksToAPI(tasks: seq<Task>) returns (r: seq<ApiTask>)
    ensures |r| == |tasks|
    ensures forall i :: 0 <= i < |tasks| ==> r[i] == MapInternalTaskToAPI(tasks[i])
  {
    r := [];
    var i := 0;
    while i < |tasks|
      invariant 0 <= i <= |tasks| && |r| == i
      invariant forall j :: 0 <= j < i ==> r[j] == MapInternalTaskToAPI(tasks[j])
    {
      r := r + [MapInternalTaskToAPI(tasks[i])];
      i := i + 1;
    }
  }
}

=== FILE: godurations.dfy ===
/** The text Go's `time.Duration.String` gives a whole number of seconds,
    which the completion message embeds. */
module GoDurations {

  predicate IsDigit(c: char)
  {
    '0' as int <= c as int <= '9' as int
  }

  function Digit(d: nat): (c: char)
    requires d < 10
    ensures IsDigit(c) && c as int - '0' as int == d
  {
    "0123456789"[d]
  }

  /** Decimal digits of `n`, most significant first, without leading zeros. */
  function Decimal(n: nat): (s: string)
    ensures |s| >= 1
    ensures forall i :: 0 <= i < |s| ==> IsDigit(s[i])
  {
    if n < 10 then [Digit(n)] else Decimal(n / 10) + [Digit(n % 10)]
  }

  /** Reads a string of decimal digits back as a number. */
  function DecimalValue(s: string): nat
    requires forall i :: 0 <= i < |s| ==> IsDigit(s[i])
  {
    if s == [] then 0
    else
      assert IsDigit(s[|s| - 1]);
      DecimalValue(s[..|s| - 1]) * 10 + (s[|s| - 1] as int - '0' as int)
  }

  /** Formatting a number loses nothing: reading the digits back gives it. */
  lemma {:induction false} DecimalRoundTrip(n: nat)
    ensures DecimalValue(Decimal(n)) == n
  {
    if n >= 10 {
      var s := Decimal(n);
      assert s[..|s| - 1] == Decimal(n / 10);
      DecimalRoundTrip(n / 10);
    }
  }

  /** `Duration.String` for `secs` whole seconds: "0s", "42s", "3m20s",
      "1h0m5s". */
  function DurationText(secs: nat): (s: string)
    ensures |s| >= 2 && s[|s| - 1] == 's'
  {
    if secs == 0 then "0s"
    else
      var h, m, sec := secs / 3600, secs % 3600 / 60, secs % 60;
      if h > 0 then Decimal(h) + "h" + Decimal(m) + "m" + Decimal(sec) + "s"
      else if m > 0 then Decimal(m) + "m" + Decimal(sec) + "s"
      else Decimal(sec) + "s"
  }

  /** Under an hour but at least a minute: minutes and seconds, no hours. */
  lemma MinutesText(secs: nat)
    requires 60 <= secs < 3600
    ensures DurationText(secs) == Decimal(secs / 60) + "m" + Decimal(secs % 60) + "s"
  {
    assert secs / 3600 == 0;
    assert secs % 3600 == secs;
    assert secs / 60 > 0;
  }
}

=== FILE: gostrings.dfy ===
/** The part of Go's `strings` package the array-parameter parser relies
    on: `strings.Index` and `strings.Split`, with `strings.Join` as the
    operation a split undoes. Characters stand for UTF-8 sequences. */
module GoStrings {
  import opened Results

  /** `sep` occurs in `s` starting at position `i`. */
  predicate OccursAt(s: string, sep: string, i: nat)
  {
    i + |sep| <= |s| && s[i..i + |sep|] == sep
  }

  /** The first occurrence of `sep` in `s` at or after `from`. */
  function IndexFrom(s: string, sep: string, from: nat): (r: Option<nat>)
    decreases |s| - from
    ensures r.Some? ==> from <= r.value && OccursAt(s, sep, r.value)
    ensures forall j: nat {:trigger OccursAt(s, sep, j)} ::
      from <= j && (r.None? || j < r.value) ==> !OccursAt(s, sep, j)
  {
    if from + |sep| > |s| then None
    else if s[from..from + |sep|] == sep then Some(from)
    else IndexFrom(s, sep, from + 1)
  }

  /** `strings.Index`: the first occurrence of `sep` in `s`. */
  function Index(s: string, sep: string): Option<nat>
  {
    IndexFrom(s, sep, 0)
  }

  /** Splitting on the empty separator: one piece per character. */
  function Explode(s: string): (parts: seq<string>)
    ensures |parts| == |s|
  {
    if s == "" then [] else [[s[0]]] + Explode(s[1..])
  }

  /** `strings.Split`: the pieces of `s` between the occurrences of `sep`,
      found left to right without overlap. */
  function Split(s: string, sep: string): (parts: seq<string>)
    decreases |s|
    ensures sep != "" || s != "" ==> |parts| >= 1
  {
    if sep == "" then Explode(s)
    else match Index(s, sep)
      case None => [s]
      case Some(i) => [s[..i]] + Split(s[i + |sep|..], sep)
  }

  /** `strings.Join`: the pieces with `sep` between neighbours. */
  function Join(parts: seq<string>, sep: string): string
  {
    if |parts| == 0 then ""
    else if |parts| == 1 then parts[0]
    else parts[0] + sep + Join(parts[1..], sep)
  }

  /** Joining the pieces of a split with the same separator gives back the
      original string. */
  lemma {:induction false} SplitJoin(s: string, sep: string)
    ensures Join(Split(s, sep), sep) == s
    decreases |s|
  {
    if sep == "" {
      ExplodeJoin(s);
    } else if Index(s, sep).Some? {
      var i := Index(s, sep).value;
      var rest := s[i + |sep|..];
      SplitJoin(rest, sep);
      var parts := Split(s, sep);
      assert parts == [s[..i]] + Split(rest, sep);
      assert |Split(rest, sep)| >= 1;
      assert Join(parts, sep) == s[..i] + sep + Join(Split(rest, sep), sep);
      Reassemble(s, sep, i);
    }
  }

  /** Cutting out one occurrence of `sep` and putting it back. */
  lemma Reassemble(s: string, sep: string, i: nat)
    requires OccursAt(s, sep, i)
    ensures s[..i] + sep + s[i + |sep|..] == s
  {
    assert s == s[..i] + s[i..i + |sep|] + s[i + |sep|..];
  }

  lemma {:induction false} ExplodeJoin(s: string)
    ensures Join(Explode(s), "") == s
  {
    if |s| > 1 {
      ExplodeJoin(s[1..]);
      assert Explode(s)[1..] == Explode(s[1..]);
    }
  }

  /** No piece of a split on a non-empty separator contains the separator. */
  lemma {:induction false} PiecesAvoidSeparator(s: string, sep: string)
    requires sep != ""
    ensures forall p :: p in Split(s, sep) ==> Index(p, sep).None?
    decreases |s|
  {
    if Index(s, sep).Some? {
      var i := Index(s, sep).value;
      var head, rest := s[..i], s[i + |sep|..];
      PiecesAvoidSeparator(rest, sep);
      HeadAvoidsSeparator(s, sep, i);
      assert Split(s, sep) == [head] + Split(rest, sep);
    }
  }

  /** The text before the first occurrence holds no occurrence. */
  lemma HeadAvoidsSeparator(s: string, sep: string, i: nat)
    requires sep != "" && Index(s, sep) == Some(i)
    ensures Index(s[..i], sep).None?
  {
    var head := s[..i];
    forall j: nat | j + |sep| <= |head|
      ensures !OccursAt(head, sep, j)
    {
      assert head[j..j + |sep|] == s[j..j + |sep|];
      assert !OccursAt(s, sep, j);
    }
  }

  /** A string with no occurrence of a non-empty separator is a single
      piece. */
  lemma SplitWithoutSeparator(s: string, sep: string)
    requires sep != "" && Index(s, sep).None?
    ensures Split(s, sep) == [s]
  {
  }
}

=== FILE: helpers.dfy ===
/** The query-parameter combinators of the generated HTTP layer
    (api/v1/helpers.go), for integer parameters. The string parser a
    combinator wraps is a function parameter; Go's `error` is an optional
    message. */
module Helpers {
  import opened Results
  import opened GoStrings

  const RequiredMissing: string := "required parameter is missing"
  const MinValueViolated: string := "provided parameter is not respecting minimum value constraint"
  const MaxValueViolated: string := "provided parameter is not respecting maximum value constraint"

  /** What a `ParseString` returns: a value and an error, both always
      present as in Go. */
  datatype Parsed = Parsed(value: int, err: Option<string>)

  /** What an `Operation` returns: the value, whether it is the default
      (Go's `ok`), and an error. */
  datatype Operated = Operated(value: int, usedDefault: bool, err: Option<string>)

  /** What the array parser returns: the values (nil is the empty
      sequence) and an error. */
  datatype ParsedList = ParsedList(values: seq<int>, err: Option<string>)

  type Parser = string -> Parsed
  type Operation = string -> Operated
  type Constraint = int -> Option<string>

  // ---------------------------------------------------------------------
  // The integer parsers: empty text is zero, anything else goes to strconv

  /** `parseInt64`: `strconv` stands for `strconv.ParseInt(param, 10, 64)`. */
  function ParseInt64(strconv: Parser, param: string): (r: Parsed)
    ensures param == "" ==> r == Parsed(0, None)
    ensures param != "" ==> r == strconv(param)
  {
    if param == "" then Parsed(0, None) else strconv(param)
  }

  /** Go's `int32(v)` conversion: two's-complement truncation. */
  function Int32(v: int): (r: int)
    ensures -0x8000_0000 <= r < 0x8000_0000
    ensures -0x8000_0000 <= v < 0x8000_0000 ==> r == v
    ensures (r - v) % 0x1_0000_0000 == 0
  {
    (v + 0x8000_0000) % 0x1_0000_0000 - 0x8000_0000
  }

  /** `parseInt32`: `strconv` stands for `strconv.ParseInt(param, 10, 32)`,
      whose value is converted to 32 bits. */
  function ParseInt32(strconv: Parser, param: string): (r: Parsed)
    ensures param == "" ==> r == Parsed(0, None)
    ensures -0x8000_0000 <= r.value < 0x8000_0000
    ensures param != "" ==> r.err == strconv(param).err
    ensures param != "" && -0x8000_0000 <= strconv(param).value < 0x8000_0000 ==> r == strconv(param)
  {
    if param == "" then Parsed(0, None)
    else
      var p := strconv(param);
      Parsed(Int32(p.value), p.err)
  }

  // ---------------------------------------------------------------------
  // Operations (the closures WithRequire, WithDefaultOrParse and WithParse
  // return, applied to the parameter text)

  /** `WithParse(parse)(actual)`: the parser's value and error, never the
      default. */
  function WithParse(parse: Parser, actual: string): (r: Operated)
    ensures !r.usedDefault
    ensures r.value == parse(actual).value && r.err == parse(actual).err
  {
    var p := parse(actual);
    Operated(p.value, false, p.err)
  }

  /** `WithRequire(parse)(actual)`: empty text is the "required parameter
      is missing" error, anything else is parsed. */
  function WithRequire(parse: Parser, actual: string): (r: Operated)
    ensures !r.usedDefault
    ensures actual == "" ==> r == Operated(0, false, Some(RequiredMissing))
    ensures actual != "" ==> r == WithParse(parse, actual)
  {
    if actual == "" then Operated(0, false, Some(RequiredMissing))
    else
      var p := parse(actual);
      Operated(p.value, false, p.err)
  }

  /** `WithDefaultOrParse(def, parse)(actual)`: empty text is the default,
      flagged as such and without error; anything else is parsed. */
  function WithDefaultOrParse(def: int, parse: Parser, actual: string): (r: Operated)
    ensures r.usedDefault <==> actual == ""
    ensures actual == "" ==> r == Operated(def, true, None)
    ensures actual != "" ==> r == WithParse(parse, actual)
  {
    if actual == "" then Operated(def, true, None)
    else
      var p := parse(actual);
      Operated(p.value, false, p.err)
  }

  // ---------------------------------------------------------------------
  // Constraints

  /** `WithMinimum(expected)(actual)`. */
  function WithMinimum(expected: int, actual: int): (r: Option<string>)
    ensures r.Some? <==> actual < expected
    ensures r.Some? ==> r.value == MinValueViolated
  {
    if actual < expected then Some(MinValueViolated) else None
  }

  /** `WithMaximum(expected)(actual)`. */
  function WithMaximum(expected: int, actual: int): (r: Option<string>)
    ensures r.Some? <==> actual > expected
    ensures r.Some? ==> r.value == MaxValueViolated
  {
    if actual > expected then Some(MaxValueViolated) else None
  }

  /** The error of the first constraint, in order, that `v` fails. */
  function FirstViolation(checks: seq<Constraint>, v: int): (r: Option<string>)
    ensures r.None? <==> forall i :: 0 <= i < |checks| ==> checks[i](v).None?
    ensures r.Some? ==> exists i :: 0 <= i < |checks| && checks[i](v) == r
                                 && forall j :: 0 <= j < i ==> checks[j](v).None?
  {
    if checks == [] then None
    else if checks[0](v).Some? then checks[0](v)
    else
      var r := FirstViolation(checks[1..], v);
      assert forall i :: 1 <= i < |checks| ==> checks[i] == checks[1..][i - 1];
      r
  }

  // ---------------------------------------------------------------------
  // The parameter parsers

  /** `parseNumericParameter`: run the operation; its error wins; a default
      skips the constraints; otherwise the first failing constraint's error
      is returned. Every error comes with the value 0. */
  function ParseNumericParameter(param: string, fn: Operation, checks: seq<Constraint>): (r: Parsed)
    ensures r.err.Some? ==> r.value == 0
    ensures fn(param).err.Some? ==> r.err == fn(param).err
    ensures fn(param).err.None? && fn(param).usedDefault ==> r == Parsed(fn(param).value, None)
    ensures fn(param).err.None? && !fn(param).usedDefault ==>
      && r.err == FirstViolation(checks, fn(param).value)
      && (r.err.None? ==> r.value == fn(param).value)
  {
    var op := fn(param);
    if op.err.Some? then Parsed(0, op.err)
    else if op.usedDefault then Parsed(op.value, None)
    else match FirstViolation(checks, op.value)
      case Some(e) => Parsed(0, Some(e))
      case None => Parsed(op.value, None)
  }

  /** `parseNumericArrayParameter`: empty text is the missing-parameter
      error when required and no values otherwise; else the text is split
      on `delim` and every piece goes through the operation and the
      constraints, the first failing piece aborting with its error. */
  method ParseNumericArrayParameter(param: string, delim: string, required: bool,
                                    fn: Operation, checks: seq<Constraint>) returns (r: ParsedList)
    ensures param == "" ==> r == ParsedList([], if required then Some(RequiredMissing) else None)
    ensures r.err.Some? ==> r.values == []
    ensures param != "" ==>
      var pieces := Split(param, delim);
      r.err.None? <==> forall i :: 0 <= i < |pieces| ==> ParseNumericParameter(pieces[i], fn, checks).err.None?
    ensures param != "" && r.err.None? ==>
      var pieces := Split(param, delim);
      |r.values| == |pieces| && forall i :: 0 <= i < |pieces| ==> r.values[i] == fn(pieces[i]).value
    ensures param != "" && r.err.Some? ==>
      var pieces := Split(param, delim);
      exists i :: 0 <= i < |pieces| && ParseNumericParameter(pieces[i], fn, checks).err == r.err &&
        forall j :: 0 <= j < i ==> ParseNumericParameter(pieces[j], fn, checks).err.None?
  {
    if param == "" {
      if required {
        return ParsedList([], Some(RequiredMissing));
      }
      return ParsedList([], None);
    }
    var pieces := Split(param, delim);
    var values: seq<int> := [];
    var i := 0;
    while i < |pieces|
      invariant 0 <= i <= |pieces| && |values| == i
      invariant forall j :: 0 <= j < i ==> ParseNumericParameter(pieces[j], fn, checks).err.None?
      invariant forall j :: 0 <= j < i ==> values[j] == fn(pieces[j]).value
    {
      // Go's loop body repeats parseNumericParameter's steps
      // (operation, then constraints unless defaulted) on each piece.
      var piece := ParseNumericParameter(pieces[i], fn, checks);
      if piece.err.Some? {
        assert ParseNumericParameter(Split(param, delim)[i], fn, checks).err.Some?;
        return ParsedList([], piece.err);
      }
      values := values + [piece.value];
      i := i + 1;
    }
    return ParsedList(values, None);
  }

  // ---------------------------------------------------------------------
  // How the pieces fit together

  /** The closure `WithMinimum(expected)` returns. */
  function MinimumCheck(expected: int): Constraint
  {
    x => WithMinimum(expected, x)
  }

  /** The closure `WithMaximum(expected)` returns. */
  function MaximumCheck(expected: int): Constraint
  {
    x => WithMaximum(expected, x)
  }

  /** The closure `WithParse(parse)` returns. */
  function ParseOperation(parse: Parser): Operation
  {
    a => WithParse(parse, a)
  }

  /** The closure `WithRequire(parse)` returns. */
  function RequireOperation(parse: Parser): Operation
  {
    a => WithRequire(parse, a)
  }

  /** The closure `WithDefaultOrParse(def, parse)` returns. */
  function DefaultOperation(def: int, parse: Parser): Operation
  {
    a => WithDefaultOrParse(def, parse, a)
  }

  /** A required parameter left empty is reported missing, whatever the
      constraints. */
  lemma MissingRequiredParameter(parse: Parser, checks: seq<Constraint>)
    ensures ParseNumericParameter("", RequireOperation(parse), checks) == Parsed(0, Some(RequiredMissing))
  {
  }

  /** An empty parameter with a default yields the default even when the
      default itself breaks a constraint: defaults are not checked. */
  lemma DefaultSkipsConstraints(def: int, parse: Parser, checks: seq<Constraint>)
    ensures ParseNumericParameter("", DefaultOperation(def, parse), checks) == Parsed(def, None)
  {
  }

  /** With the constraints `[WithMinimum(lo), WithMaximum(hi)]` a parsed
      value is accepted exactly inside `[lo, hi]`, and a value below `lo` is
      reported as a minimum violation even when it is also above `hi`. */
  lemma {:induction false} RangeConstraints(param: string, parse: Parser, lo: int, hi: int)
    requires parse(param).err.None?
    ensures
      var v := parse(param).value;
      var r := ParseNumericParameter(param, ParseOperation(parse), [MinimumCheck(lo), MaximumCheck(hi)]);
      && (r == Parsed(v, None) <==> lo <= v <= hi)
      && (v < lo ==> r == Parsed(0, Some(MinValueViolated)))
      && (lo <= v && hi < v ==> r == Parsed(0, Some(MaxValueViolated)))
  {
    var v := parse(param).value;
    var checks := [MinimumCheck(lo), MaximumCheck(hi)];
    assert checks[1..] == [MaximumCheck(hi)];
    assert checks[1..][1..] == [];
    assert FirstViolation(checks, v) == if v < lo then Some(MinValueViolated)
                                        else if hi < v then Some(MaxValueViolated) else None;
  }
}

=== FILE: lifecycle.dfy ===
/** Properties of the service as a whole: the store invariant its
    operations keep, the pending -> running -> completed | failed life of a
    task, the lost terminal write after a deletion, and reads that do not
    disturb a finished task. */
module Lifecycle {
  import opened Results
  import opened Common
  import TaskStore
  import opened Service
  import opened GoDurations

  /** A read changes nothing of a record but its duration. */
  lemma RefreshChangesOnlyDuration(t: Task, now: Time)
    ensures Refresh(t, now).(duration := t.duration) == t
    ensures Refresh(t, now).status == t.status
  {
  }

  /** Creation keeps the store valid. */
  lemma CreateKeepsValid(s: Store, name: string, freshId: string, now: Time)
    requires Valid(s)
    ensures Valid(CreateTask(s, name, freshId, now).store)
  {
  }

  /** Deletion keeps the store valid. */
  lemma DeleteKeepsValid(s: Store, id: string)
    requires Valid(s)
    ensures Valid(DeleteTask(s, id).store)
  {
  }

  /** A read keeps the store valid. */
  lemma GetKeepsValid(s: Store, id: string, now: Time)
    requires Valid(s)
    ensures Valid(GetTask(s, id, now).store)
  {
    if id in s {
      assert Consistent(Refresh(s[id], now));
    }
  }

  /** Starting a task that has not finished keeps the store valid. */
  lemma StartKeepsValid(s: Store, id: string, now: Time)
    requires Valid(s) && id in s && !IsTerminal(s[id].status)
    ensures Valid(Start(s, id, now).store)
    ensures Start(s, id, now).local.Some? && Consistent(Start(s, id, now).local.value)
  {
  }

  /** A second start on a finished task breaks the store invariant: the
      start step stamps `running` over the terminal status but keeps the
      result or error text the finish wrote. */
  lemma RestartBreaksValid(s: Store, id: string, now: Time)
    requires Valid(s) && id in s && IsTerminal(s[id].status)
    ensures !Valid(Start(s, id, now).store)
  {
    var u := Start(s, id, now);
    assert Consistent(s[id]);
    assert u.store[id].status == Running;
    assert !Consistent(u.store[id]);
  }

  /** Writing back the terminal form of a consistent running copy keeps the
      store valid, on either branch. */
  lemma FinishKeepsValid(s: Store, task: Task, branch: Branch, draw: nat, now: Time)
    requires Valid(s) && draw < WorkChoices
    requires task.status == Running && Consistent(task)
    ensures Valid(Finish(s, task, branch, draw, now))
  {
    var done := Terminal(task, branch, WorkSeconds(draw), now);
    assert Consistent(done) by {
      assert |CompletionMessage(WorkSeconds(draw))| > 0;
    }
  }

  /** The life of one task: pending after creation, running after the start
      step, and completed or failed after the finish step, as the branch
      decides; GetTaskResult refuses it until the end, and the store stays
      valid and one record larger. The unit a create launches runs under a
      context that is never cancelled, so for it only the timer can fire
      and the task completes; the failed outcome needs a unit started with
      a cancellable context. */
  lemma TaskLifecycle(s: Store, name: string, id: string, t0: Time, t1: Time,
                       branch: Branch, draw: nat, t2: Time)
    requires Valid(s) && id !in s && name != "" && draw < WorkChoices
    ensures
      var c := CreateTask(s, name, id, t0);
      var u := Start(c.store, id, t1);
      && c.result.Ok? && c.store[id].status == Pending
      && c.launched == Some(Launch(id, false))
      && GetTaskResult(c.store, id) == Err(NotCompleted)
      && u.local.Some? && u.store[id].status == Running
      && GetTaskResult(u.store, id) == Err(NotCompleted)
      && var f := Finish(u.store, u.local.value, branch, draw, t2);
      && f[id].status == (if branch == TimerFired then Completed else Failed)
      && (CanTake(c.launched.value, branch) ==> f[id].status == Completed)
      && GetTaskResult(f, id) == Ok(f[id])
      && Valid(f)
      && |f| == |s| + 1
  {
    var c := CreateTask(s, name, id, t0);
    TaskStore.CreateAddsOne(s, name, id, t0);
    CreateKeepsValid(s, name, id, t0);
    StartKeepsValid(c.store, id, t1);
    var u := Start(c.store, id, t1);
    FinishKeepsValid(u.store, u.local.value, branch, draw, t2);
  }

  /** The lost write: when the task is deleted between the start and the
      finish step, the terminal write is dropped and no record comes back. */
  lemma DeletedTaskStaysDeleted(s: Store, id: string, t1: Time,
                                 branch: Branch, draw: nat, t2: Time)
    requires TaskStore.WellKeyed(s) && id in s && draw < WorkChoices
    ensures
      var u := Start(s, id, t1);
      && u.local.Some?
      && var d := DeleteTask(u.store, id);
      && d.result.Ok?
      && var f := Finish(d.store, u.local.value, branch, draw, t2);
      && id !in f
      && f == s - {id}
  {
    var u := Start(s, id, t1);
    var d := DeleteTask(u.store, id);
    assert d.store == s - {id};
  }

  /** The timer fires no earlier than the drawn work time after the start,
      so a completed task's recorded duration, and its finish minus start
      time, are at least that work time, and so at least three minutes. */
  lemma CompletedDurationCoversWorkTime(s: Store, task: Task, draw: nat, now: Time)
    requires task.id in s && draw < WorkChoices
    requires now >= task.startedAt + WorkSeconds(draw)
    ensures var done := Finish(s, task, TimerFired, draw, now)[task.id];
      && done.status == Completed
      && done.duration.Some?
      && done.duration.value >= WorkSeconds(draw) >= MinWorkSeconds
      && done.finishedAt - done.startedAt >= WorkSeconds(draw)
  {
  }

  /** Every whole second from three to five minutes is a possible work
      time, each for exactly one draw. */
  lemma EveryWorkTimeCanBeDrawn(w: nat)
    requires MinWorkSeconds <= w < MinWorkSeconds + WorkChoices
    ensures w - MinWorkSeconds < WorkChoices && WorkSeconds(w - MinWorkSeconds) == w
    ensures forall draw: nat :: draw < WorkChoices && WorkSeconds(draw) == w ==> draw == w - MinWorkSeconds
  {
  }

  /** The work time in a completion message is always written in minutes
      and seconds: three to five minutes, never hours. */
  lemma CompletionMessageShowsMinutes(draw: nat)
    requires draw < WorkChoices
    ensures var w := WorkSeconds(draw);
      && 3 <= w / 60 <= 5
      && CompletionMessage(w) == CompletedPrefix + Decimal(w / 60) + "m" + Decimal(w % 60) + "s"
  {
    var w := WorkSeconds(draw);
    MinutesText(w);
    assert 3 * 60 <= w < 6 * 60;
  }

  /** Reads of a finished task are stable: every read returns the stored
      record and leaves the store as it was, whatever the clock says. */
  lemma TerminalReadsAreStable(s: Store, id: string, t1: Time, t2: Time)
    requires id in s && IsTerminal(s[id].status)
    ensures GetTask(s, id, t1) == TaskStore.Step(s, Ok(s[id]))
    ensures GetTask(GetTask(s, id, t1).store, id, t2) == GetTask(s, id, t1)
  {
  }

  /** A running task read at `now` reports the seconds since its start. */
  lemma RunningReadReportsElapsed(s: Store, id: string, elapsed: nat, now: Time)
    requires TaskStore.WellKeyed(s) && id in s
    requires s[id].status == Running && s[id].startedAt != 0 && now == s[id].startedAt + elapsed
    ensures GetTask(s, id, now).result.Ok?
    ensures GetTask(s, id, now).result.value.duration == Some(elapsed)
    ensures GetTask(s, id, now).store[id].duration == Some(elapsed)
  {
  }

  /** The read-then-write race of a read's refresh: the store's lock is
      released between the read and the write-back, so a finish step that
      lands in between is overwritten and the finished task reads as
      running again. */
  lemma InterleavedRefreshUndoesFinish(s: Store, id: string, t1: Time,
                                        branch: Branch, draw: nat, t2: Time)
    requires TaskStore.WellKeyed(s) && id in s && draw < WorkChoices
    requires s[id].status == Running && s[id].startedAt != 0
    ensures
      var seen := Refresh(s[id], t1);
      var finished := Finish(s, s[id], branch, draw, t2);
      var overwritten := TaskStore.UpdateTask(finished, seen).store;
      && IsTerminal(finished[id].status)
      && overwritten[id].status == Running
      && overwritten[id].finishedAt == s[id].finishedAt
  {
  }
}

=== FILE: results.dfy ===
/** The two failure-carrying shapes used throughout the model: an optional
    value (Go's zero value or nil) and a value-or-error (Go's `(T, error)`
    pair where exactly one side is meaningful). */
module Results {

  datatype Option<T> = None | Some(value: T)

  datatype Result<T, E> = Ok(value: T) | Err(error: E)
}

=== FILE: service.dfy ===
/** The task service (internal/service.go): creation, reads that refresh
    the elapsed time of running tasks, deletion, the readiness check of
    GetTaskResult, and the background execution unit split into its start
    and finish steps. The clock, the random work time, the choice between
    the timer and cancellation, and the generated id are parameters. */
module Service {
  import opened Results
  import opened Common
  import opened GoDurations
  import TaskStore

  type Store = TaskStore.Store
  type Step<T> = TaskStore.Step<T>

  const CancelledMessage: string := "Task was cancelled"
  const CompletedPrefix: string := "Task completed successfully after "

  /** The simulated work lasts `MinWorkSeconds + rand.Intn(WorkChoices)`
      seconds. */
  const MinWorkSeconds: nat := 180
  const WorkChoices: nat := 121

  /** The store invariant every service operation keeps: records filed
      under their own ids, each one consistent. */
  ghost predicate Valid(s: Store)
  {
    && TaskStore.WellKeyed(s)
    && forall k :: k in s ==> Consistent(s[k])
  }

  // ---------------------------------------------------------------------
  // Creation

  /** An execution unit as launched: the id it works on and whether the
      context it runs under can be cancelled. */
  datatype Launch = Launch(id: string, cancellable: bool)

  /** A create's outcome, and the execution unit it launches. */
  datatype Created = Created(store: Store, result: Result<Task, TaskError>, launched: Option<Launch>)

  /** Creates through the store and, on success, launches exactly one
      execution unit for the new id, under `context.Background()`, which
      is never cancelled. */
  function CreateTask(s: Store, name: string, freshId: string, now: Time): (r: Created)
    ensures r.result.Err? <==> name == ""
    ensures r.result.Err? ==> r == Created(s, Err(NameRequired), None)
    ensures r.result.Ok? ==>
      var t := r.result.value;
      && t.status == Pending && t.name == name && t.id == freshId && t.createdAt == now
      && t == TaskStore.NewTask(freshId, name, now)
      && TaskStore.GetTask(r.store, freshId) == Ok(t)
      && r.launched == Some(Launch(freshId, false))
      && GetTaskResult(r.store, freshId) == Err(NotCompleted)
      && r.store.Keys == s.Keys + {freshId}
    ensures forall k :: k in s && k != freshId ==> k in r.store && r.store[k] == s[k]
  {
    var c := TaskStore.CreateTask(s, name, freshId, now);
    match c.result
    case Err(e) => Created(c.store, Err(e), None)
    case Ok(t) => Created(c.store, Ok(t), Some(Launch(t.id, false)))
  }

  // ---------------------------------------------------------------------
  // Reads

  /** What a read shows of `t` at time `now`: a running, started task gets
      its duration recomputed, every other task is shown as stored. */
  function Refresh(t: Task, now: Time): (r: Task)
    ensures t.status == Running && t.startedAt != 0 ==> r.duration == Some(now - t.startedAt)
    ensures !(t.status == Running && t.startedAt != 0) ==> r == t
  {
    if t.status == Running && t.startedAt != 0 then t.(duration := Some(now - t.startedAt)) else t
  }

  /** Reads one task; if it is running, the refreshed duration is written
      back (best effort: a failed write is ignored) and returned. */
  function GetTask(s: Store, id: string, now: Time): (r: Step<Task>)
    ensures id !in s ==> r == TaskStore.Step(s, Err(NotFound))
    ensures id in s ==> r.result == Ok(Refresh(s[id], now))
    ensures r.store.Keys == s.Keys
    ensures TaskStore.WellKeyed(s) && id in s ==> r.store == s[id := Refresh(s[id], now)]
  {
    match TaskStore.GetTask(s, id)
    case Err(e) => TaskStore.Step(s, Err(e))
    case Ok(task) =>
      if task.status == Running && task.startedAt != 0 then
        var refreshed := task.(duration := Some(now - task.startedAt));
        TaskStore.Step(TaskStore.UpdateTask(s, refreshed).store, Ok(refreshed))
      else
        TaskStore.Step(s, Ok(task))
  }

  /** Lists every task, refreshing and writing back the duration of each
      running one. `keys[i]` is the key `tasks[i]` was read from. */
  method GetTasks(s: Store, now: Time) returns (tasks: seq<Task>, st: Store, ghost keys: seq<string>)
    ensures TaskStore.Enumerates(s, keys)
    ensures |tasks| == |s|
    ensures forall i :: 0 <= i < |tasks| ==> tasks[i] == Refresh(s[keys[i]], now)
    ensures st.Keys == s.Keys
    ensures TaskStore.WellKeyed(s) ==> st == map k | k in s :: Refresh(s[k], now)
    ensures Valid(s) ==> Valid(st)
  {
    var listed;
    listed, keys := TaskStore.GetTasks(s);
    tasks, st := RefreshListed(s, listed, now);
    if TaskStore.WellKeyed(s) {
      ListingRefreshesAll(s, listed, keys, now);
    }
    if Valid(s) {
      RefreshAllKeepsValid(s, now);
    }
  }

  /** Refreshing every record of a valid store leaves it valid: a refresh
      touches only the duration of a running task, which already has one. */
  lemma RefreshAllKeepsValid(s: Store, now: Time)
    requires Valid(s)
    ensures Valid(map k | k in s :: Refresh(s[k], now))
  {
    forall k | k in s
      ensures Consistent(Refresh(s[k], now)) && Refresh(s[k], now).id == k
    {
      assert Consistent(s[k]);
    }
  }

  /** The loop of `GetTasks`: refreshes the listed records in order and
      writes each running one back. */
  method RefreshListed(s: Store, listed: seq<Task>, now: Time) returns (tasks: seq<Task>, st: Store)
    ensures |tasks| == |listed|
    ensures forall j :: 0 <= j < |listed| ==> tasks[j] == Refresh(listed[j], now)
    ensures st == WriteBackAll(s, listed, now)
  {
    tasks, st := [], s;
    var i := 0;
    while i < |listed|
      invariant 0 <= i <= |listed| && |tasks| == i
      invariant forall j :: 0 <= j < i ==> tasks[j] == Refresh(listed[j], now)
      invariant st == WriteBackAll(s, listed[..i], now)
    {
      var task := listed[i];
      assert listed[..i + 1][..i] == listed[..i];
      st := WriteBack(st, task, now);
      tasks := tasks + [Refresh(task, now)];
      i := i + 1;
    }
    assert listed[..i] == listed;
  }

  /** The store after the listing loop has written back `ts` in order. */
  function WriteBackAll(st: Store, ts: seq<Task>, now: Time): (r: Store)
    ensures r.Keys == st.Keys
  {
    if ts == [] then st
    else WriteBack(WriteBackAll(st, ts[..|ts| - 1], now), ts[|ts| - 1], now)
  }

  /** Writing back the first `n` listed records refreshes exactly the
      records under the first `n` listed keys. */
  lemma {:induction false} ListingWrittenBack(s: Store, listed: seq<Task>, keys: seq<string>, n: nat, now: Time)
    requires TaskStore.WellKeyed(s) && TaskStore.Enumerates(s, keys)
    requires |listed| == |keys| && n <= |keys|
    requires forall i :: 0 <= i < |listed| ==> listed[i] == s[keys[i]]
    ensures RefreshedPrefix(s, WriteBackAll(s, listed[..n], now), keys, n, now)
  {
    if n > 0 {
      ListingWrittenBack(s, listed, keys, n - 1, now);
      assert listed[..n][..n - 1] == listed[..n - 1];
      WriteBackStep(s, WriteBackAll(s, listed[..n - 1], now), keys, n - 1, now);
    } else {
      assert keys[..0] == [];
    }
  }

  /** Writing back a whole listing refreshes every stored record. */
  lemma ListingRefreshesAll(s: Store, listed: seq<Task>, keys: seq<string>, now: Time)
    requires TaskStore.WellKeyed(s) && TaskStore.Enumerates(s, keys) && |listed| == |keys|
    requires forall i :: 0 <= i < |listed| ==> listed[i] == s[keys[i]]
    ensures WriteBackAll(s, listed, now) == map k | k in s :: Refresh(s[k], now)
  {
    ListingWrittenBack(s, listed, keys, |keys|, now);
    assert listed[..|keys|] == listed;
    FullPrefixRefreshesAll(s, WriteBackAll(s, listed, now), keys, now);
  }

  /** Once every listed key is refreshed, every stored record is. */
  lemma FullPrefixRefreshesAll(s: Store, st: Store, keys: seq<string>, now: Time)
    requires TaskStore.Enumerates(s, keys)
    requires RefreshedPrefix(s, st, keys, |keys|, now)
    ensures st == map k | k in s :: Refresh(s[k], now)
  {
    assert keys[..|keys|] == keys;
    TaskStore.EnumerationIsComplete(s, keys);
  }

  /** `st` holds the refreshed records of the first `n` listed keys and the
      stored ones of the rest. */
  ghost predicate RefreshedPrefix(s: Store, st: Store, keys: seq<string>, n: nat, now: Time)
    requires n <= |keys|
  {
    && st.Keys == s.Keys
    && forall k :: k in s ==> st[k] == if k in keys[..n] then Refresh(s[k], now) else s[k]
  }

  /** The loop's write-back: a running task's refreshed record replaces
      the stored one; any other record is left alone. */
  function WriteBack(st: Store, task: Task, now: Time): (r: Store)
    ensures r.Keys == st.Keys
    ensures task.status == Running && task.startedAt != 0 && task.id in st ==>
      r == st[task.id := Refresh(task, now)]
    ensures !(task.status == Running && task.startedAt != 0) ==> r == st
  {
    if task.status == Running && task.startedAt != 0
    then TaskStore.UpdateTask(st, Refresh(task, now)).store
    else st
  }

  /** One turn of the listing loop extends the refreshed prefix by one key. */
  lemma WriteBackStep(s: Store, st: Store, keys: seq<string>, i: nat, now: Time)
    requires TaskStore.WellKeyed(s) && TaskStore.Enumerates(s, keys) && i < |keys|
    requires RefreshedPrefix(s, st, keys, i, now)
    ensures RefreshedPrefix(s, WriteBack(st, s[keys[i]], now), keys, i + 1, now)
  {
    assert keys[..i + 1] == keys[..i] + [keys[i]];
    assert keys[i] !in keys[..i];
  }

  /** Deletes through the store; a running execution unit is not stopped. */
  function DeleteTask(s: Store, id: string): (r: Step<()>)
    ensures r.result.Ok? <==> id in s
    ensures r.result.Err? ==> r.result.error == NotFound && r.store == s
    ensures forall later: Time :: GetTask(r.store, id, later).result == Err(NotFound)
    ensures r.store.Keys == s.Keys - {id}
    ensures forall k :: k in r.store ==> r.store[k] == s[k]
  {
    TaskStore.DeleteTask(s, id)
  }

  /** Returns the record only once the task has reached a terminal status. */
  function GetTaskResult(s: Store, id: string): (r: Result<Task, TaskError>)
    ensures r == Err(NotFound) <==> id !in s
    ensures id in s ==> (r.Ok? <==> IsTerminal(s[id].status))
    ensures id in s && !IsTerminal(s[id].status) ==> r == Err(NotCompleted)
    ensures r.Ok? ==> r.value == s[id]
  {
    match TaskStore.GetTask(s, id)
    case Err(e) => Err(e)
    case Ok(task) =>
      if task.status != Completed && task.status != Failed then Err(NotCompleted)
      else Ok(task)
  }

  // ---------------------------------------------------------------------
  // The execution unit

  /** Which case of the unit's `select` fires first. */
  datatype Branch = TimerFired | Cancelled

  /** The cases a unit's `select` can take: the cancellation case needs a
      context whose `Done` channel can close; under `context.Background()`
      that channel is nil and only the timer can fire. */
  function CanTake(unit: Launch, branch: Branch): (r: bool)
    ensures branch == TimerFired ==> r
    ensures !unit.cancellable ==> (r <==> branch == TimerFired)
  {
    branch == TimerFired || unit.cancellable
  }

  /** The unit after its start step: the store, and its local copy of the
      record (`None` once the unit has given up and returned). */
  datatype Unit = Unit(store: Store, local: Option<Task>)

  /** The simulated work time for a random draw `rand.Intn(121)`. */
  function WorkSeconds(draw: nat): (secs: nat)
    requires draw < WorkChoices
    ensures 180 <= secs <= 300
  {
    MinWorkSeconds + draw
  }

  /** The result text of a completed task. */
  function CompletionMessage(work: nat): (m: string)
    ensures |m| > |CompletedPrefix| && m[..|CompletedPrefix|] == CompletedPrefix
  {
    CompletedPrefix + DurationText(work)
  }

  /** Start step: read the record, stamp it running and started at `now`,
      write it back. A missing record (or a failed write) ends the unit. */
  function Start(s: Store, id: string, now: Time): (u: Unit)
    ensures id !in s ==> u == Unit(s, None)
    ensures u.local.None? ==> u.store == s
    ensures u.store.Keys == s.Keys
    ensures u.local.Some? ==>
      var t := u.local.value;
      && id in s
      && t.status == Running && t.startedAt == now
      && t.(status := s[id].status, startedAt := s[id].startedAt) == s[id]
      && u.store == s[t.id := t]
    ensures TaskStore.WellKeyed(s) && id in s ==> u.local.Some? && u.store == s[id := u.local.value]
  {
    match TaskStore.GetTask(s, id)
    case Err(_) => Unit(s, None)
    case Ok(task) =>
      var running := task.(startedAt := now, status := Running);
      var w := TaskStore.UpdateTask(s, running);
      if w.result.Err? then Unit(s, None) else Unit(w.store, Some(running))
  }

  /** The unit's local copy after the `select`: completed with a result when
      the timer fired, failed with the cancellation error otherwise; either
      way finished at `now` with the elapsed time since the start. */
  function Terminal(task: Task, branch: Branch, work: nat, now: Time): (t: Task)
    ensures IsTerminal(t.status)
    ensures t.status == Completed <==> branch == TimerFired
    ensures t.finishedAt == now && t.duration == Some(now - task.startedAt)
    ensures t.(status := task.status, finishedAt := task.finishedAt, result := task.result,
               error := task.error, duration := task.duration) == task
    ensures branch == TimerFired ==> t.result == CompletionMessage(work) && t.error == task.error
    ensures branch == Cancelled ==> t.error == CancelledMessage && t.result == task.result
  {
    match branch
    case TimerFired =>
      task.(finishedAt := now, status := Completed, result := CompletionMessage(work),
            duration := Some(now - task.startedAt))
    case Cancelled =>
      task.(finishedAt := now, status := Failed, error := CancelledMessage,
            duration := Some(now - task.startedAt))
  }

  /** Finish step: write the terminal local copy back; if the record was
      deleted meanwhile the write fails and is dropped. */
  function Finish(s: Store, task: Task, branch: Branch, draw: nat, now: Time): (r: Store)
    requires draw < WorkChoices
    ensures task.id !in s ==> r == s
    ensures task.id in s ==> r == s[task.id := Terminal(task, branch, WorkSeconds(draw), now)]
  {
    TaskStore.UpdateTask(s, Terminal(task, branch, WorkSeconds(draw), now)).store
  }
}

=== FILE: taskstore.dfy ===
/** The in-memory task store (pkg/taskstore.go): a map from id to record
    with create, get, update, delete and list. Each operation is atomic
    here; the read/write lock that makes it so is not modelled. */
module TaskStore {
  import opened Results
  import opened Common

  type Store = map<string, Task>

  /** The outcome of a store operation: the store afterwards and what the
      caller gets back. */
  datatype Step<T> = Step(store: Store, result: Result<T, TaskError>)

  /** Every record is filed under its own id. */
  ghost predicate WellKeyed(s: Store)
  {
    forall k :: k in s ==> s[k].id == k
  }

  /** The record a successful create stores. */
  function NewTask(id: string, name: string, now: Time): Task
  {
    Task(id, name, Pending, now, 0, 0, "", "", None)
  }

  /** Creates a pending task named `name` under `freshId` (the generated
      UUID) stamped with `now`; an empty name is refused. */
  function CreateTask(s: Store, name: string, freshId: string, now: Time): (r: Step<Task>)
    ensures r.result.Err? <==> name == ""
    ensures r.result.Err? ==> r.result.error == NameRequired && r.store == s
    ensures r.result.Ok? ==>
      var t := r.result.value;
      && t.id == freshId && t.name == name && t.status == Pending && t.createdAt == now
      && Consistent(t)
      && r.store.Keys == s.Keys + {freshId}
      && r.store[freshId] == t
      && (forall k :: k in s && k != freshId ==> r.store[k] == s[k])
  {
    if name == "" then
      Step(s, Err(NameRequired))
    else
      var t := NewTask(freshId, name, now);
      Step(s[freshId := t], Ok(t))
  }

  /** Looks a record up by id. */
  function GetTask(s: Store, id: string): (r: Result<Task, TaskError>)
    ensures r.Ok? <==> id in s
    ensures r.Ok? ==> r.value == s[id]
    ensures r.Err? ==> r.error == NotFound
  {
    if id in s then Ok(s[id]) else Err(NotFound)
  }

  /** Replaces the record filed under `t.id` by `t` as a whole; a missing id
      is an error and nothing is inserted. */
  function UpdateTask(s: Store, t: Task): (r: Step<()>)
    ensures r.store.Keys == s.Keys
    ensures r.result.Ok? <==> t.id in s
    ensures r.result.Err? ==> r.result.error == NotFound && r.store == s
    ensures r.result.Ok? ==> r.store[t.id] == t
    ensures forall k :: k in s && k != t.id ==> r.store[k] == s[k]
  {
    if t.id !in s then
      Step(s, Err(NotFound))
    else
      Step(s[t.id := t], Ok(()))
  }

  /** Removes the record filed under `id`; a missing id is an error. */
  function DeleteTask(s: Store, id: string): (r: Step<()>)
    ensures r.result.Ok? <==> id in s
    ensures r.result.Err? ==> r.result.error == NotFound && r.store == s
    ensures r.store.Keys == s.Keys - {id}
    ensures forall k :: k in r.store ==> r.store[k] == s[k]
    ensures id in s ==> |r.store| == |s| - 1
  {
    if id !in s then
      Step(s, Err(NotFound))
    else
      Step(s - {id}, Ok(()))
  }

  /** `keys` lists keys of `s`, each at most once, as many as `s` holds;
      EnumerationIsComplete shows that every key is then listed. */
  ghost predicate Enumerates(s: Store, keys: seq<string>)
  {
    && |keys| == |s|
    && (forall i :: 0 <= i < |keys| ==> keys[i] in s)
    && (forall i, j :: 0 <= i < j < |keys| ==> keys[i] != keys[j])
  }

  /** Lists every stored record once, in no particular order (Go's map
      iteration order is unspecified, so the next key is chosen freely).
      `keys[i]` is the key `tasks[i]` was read from. */
  method GetTasks(s: Store) returns (tasks: seq<Task>, ghost keys: seq<string>)
    ensures Enumerates(s, keys)
    ensures |tasks| == |s|
    ensures forall i :: 0 <= i < |tasks| ==> tasks[i] == s[keys[i]]
    ensures WellKeyed(s) ==> forall i, j :: 0 <= i < j < |tasks| ==> tasks[i].id != tasks[j].id
  {
    tasks, keys := [], [];
    var rest := s.Keys;
    while rest != {}
      invariant rest <= s.Keys
      invariant |tasks| == |keys|
      invariant forall i :: 0 <= i < |keys| ==> keys[i] in s && keys[i] !in rest && tasks[i] == s[keys[i]]
      invariant forall i, j :: 0 <= i < j < |keys| ==> keys[i] != keys[j]
      invariant |keys| + |rest| == |s|
      decreases |rest|
    {
      var k :| k in rest;
      tasks, keys := tasks + [s[k]], keys + [k];
      rest := rest - {k};
    }
  }

  /** A duplicate-free list of members of `ks` as long as `ks` lists all
      of it. */
  lemma {:induction false} DistinctListCoversSet(ks: set<string>, keys: seq<string>)
    requires |keys| == |ks|
    requires forall i :: 0 <= i < |keys| ==> keys[i] in ks
    requires forall i, j :: 0 <= i < j < |keys| ==> keys[i] != keys[j]
    ensures forall k :: k in ks ==> k in keys
  {
    if keys != [] {
      var last := keys[|keys| - 1];
      var init := keys[..|keys| - 1];
      assert forall i :: 0 <= i < |init| ==> init[i] == keys[i];
      DistinctListCoversSet(ks - {last}, init);
      forall k | k in ks
        ensures k in keys
      {
        if k != last {
          assert k in init;
          var i :| 0 <= i < |init| && init[i] == k;
          assert keys[i] == k;
        }
      }
    }
  }

  /** A listing of as many distinct keys as the store holds is complete:
      GetTasks returns every stored record. */
  lemma EnumerationIsComplete(s: Store, keys: seq<string>)
    requires Enumerates(s, keys)
    ensures forall k :: k in s ==> k in keys
  {
    DistinctListCoversSet(s.Keys, keys);
  }

  /** A create with a fresh id grows the store by exactly one record, which
      a following get returns. */
  lemma CreateAddsOne(s: Store, name: string, freshId: string, now: Time)
    requires name != "" && freshId !in s
    ensures var r := CreateTask(s, name, freshId, now);
      && |r.store| == |s| + 1
      && GetTask(r.store, freshId) == r.result
  {
    var r := CreateTask(s, name, freshId, now);
    assert r.store.Keys == s.Keys + {freshId};
  }

  /** After a successful update, get returns exactly the supplied record. */
  lemma UpdateThenGet(s: Store, t: Task, id: string)
    requires t.id in s
    ensures GetTask(UpdateTask(s, t).store, t.id) == Ok(t)
    ensures id != t.id ==> GetTask(UpdateTask(s, t).store, id) == GetTask(s, id)
  {
  }

  /** After a successful delete, get on that id reports "Task not found". */
  lemma DeleteThenGet(s: Store, id: string)
    requires id in s
    ensures GetTask(DeleteTask(s, id).store, id) == Err(NotFound)
  {
  }

  /** Every mutating operation keeps records filed under their own ids. */
  lemma OperationsKeepWellKeyed(s: Store, name: string, freshId: string, now: Time, t: Task, id: string)
    requires WellKeyed(s)
    ensures WellKeyed(CreateTask(s, name, freshId, now).store)
    ensures WellKeyed(UpdateTask(s, t).store)
    ensures WellKeyed(DeleteTask(s, id).store)
  {
  }
}
